=== FILE: README.md ===
# NoFlairBot moderation step, modelled in Dafny

NoFlairBot watches the comment stream of a subreddit. Every comment that
passes the skip chain counts as a violation in its thread. To pass, the
author has no flair, has not been answered in the thread yet and has a name
free of "bot" and "modteam", and the thread is at most seven days old and
has no warning yet. The bot roasts such users with a text from a generator
service until three of them have a reply in the thread that was posted and
marked; a user whose generation or post failed takes no slot, and one whose
reply was posted but not marked may be roasted again. When a thread
reaches ten violations, it pins one warning there. Successful replies are
budgeted at five per minute and 250 per day; a comment that arrives with a
window used up is dropped after a sleep. The per-thread state is saved to a JSON file
after each completed comment, and read back at start-up.

The model is one pure step over explicit state:
`Bot.Step(state, comment, now, outcomes)` returns the new state, the calls the
bot made (`Action`s) and how the turn ended (`Disposition`). The clock reading
is a parameter. So are the results of the external calls: the generator
raised, gave nothing usable, or gave a text; each site write either
succeeded, raised when posting, or raised when marking the posted comment as
a moderator action. `Trace.Replay` feeds a sequence of such inputs through
`Step`, which stands for the comment stream. It is the fold of one turn
over the inputs (`Trace.Fold`).

Modules, leaves first:

- `Optional`: the `Option` type, for a deleted author, a missing flair or a
  key missing from the state file.
- `Text`: ASCII lower-casing and a left-to-right substring search, as used in
  Python's `"bot" in name.lower()`.
- `RateWindow`: the minute and day windows, their rollover and the gate.
- `Persistence`: the three collections of thread state (`Store`), the
  document they are written as, `Load` and `Save`.
- `Policy`: the ordered skip chain (`Screen`) and the plain-words definition
  of a violation (`Qualifies`).
- `Bot`: the step, split into the phases of the source: `InitThread`,
  `Handle`, `Violate`, `Answer`, `Finish`.
- `Trace`: runs of many steps, and the invariants that hold along them.

What the source does, and the model keeps:

- The gate runs before anything else. It rolls both windows first, and the
  rolled windows are kept even when the comment is dropped. A dropped comment
  is not retried, and its thread gets no entries.
- Entries for the thread are created for every comment that passes the gate,
  including comments the skip chain then drops.
- The skip chain and the generator/"error" stops end the turn without saving
  the state. An exception from a site write also ends the turn without
  saving. Changes already made stay in memory, above all the incremented
  count.
- A rate-window call is spent only once the reply has been posted and marked.
  A failed or unusable generation costs nothing.
- The source guards the sleep with `max(0, reset - now)`. An exhausted window
  cannot have been rolled in the same turn, so the sleep is always positive
  (`RateWindow.Check`).

How the budget and the warning are ordered in the code:

- The minute window is checked first. When it is exhausted, the bot sleeps
  until the minute reset, even if the day window is exhausted too.
- The budget is not taken together with the decision to generate. It is
  checked on every comment and spent after a successful reply.
- The final warning is not guaranteed to come from the comment that brings
  the count to ten. If that turn stops in the reply part, the warning comes
  with the next counted comment of the thread whose turn gets past the reply
  part. If posting the warning raises, it is tried again in the same way.

Consequences of the code as written, stated in the lemmas rather than
hidden:

- If marking the final warning raises after it was posted, the thread does
  not join the final set. A later counted comment posts the warning again.
  `Trace.ReplayPinsOnce` therefore bounds the successful pins (`PinFinal`),
  not the posts.
- If marking a reply raises after it was posted, the author is not recorded.
  That author can be answered again later.
- Only successful replies are counted against the windows. A generation
  that raises, comes back empty or contains "error", and a reply that fails
  to post or to be marked, spend nothing. So the generator can be called any
  number of times within a minute (`Bot.Answer`, `Bot.StepWindows`).
- The self check (`"NoFlairBot"`) never drops a comment that the bot-name
  check after it would let through (`Policy.SelfCheckSubsumed`).

## Model

| member | source | states |
|---|---|---|
| Text.Lower | NoFlairBot.py:114 | lower-casing keeps the length and folds each character on its own |
| Text.OccursIffSomewhere | NoFlairBot.py:114-117 | the left-to-right search finds a pattern exactly when it occurs as a contiguous block somewhere in the name |
| RateWindow.Roll | NoFlairBot.py:74-80 | a window whose reset time has been reached restarts with count 0 and reset `now + length`; otherwise it is unchanged; afterwards the reset lies in the future and the count has not grown |
| RateWindow.Check | NoFlairBot.py:73-90 | both windows are rolled first; the comment is dropped exactly when the rolled minute count is at least 5 or the rolled day count at least 250; the minute window is checked first and decides the sleep; the sleep equals the remaining window time and is positive |
| RateWindow.CheckKeepsSound | NoFlairBot.py:52-57 | with a clock that does not run backwards, the gate keeps each count within its limit and each reset within one window length; an admitted comment leaves room for one more call; a sleep is at most a day |
| Persistence.Load | NoFlairBot.py:10-16 | a missing or malformed file loads as the empty state; a key absent from the document loads as that collection's empty value; the lists of a document load as sets with the same members |
| Persistence.ListOf | NoFlairBot.py:21-22 | a set is written as a list that holds each member exactly once |
| Persistence.Save | NoFlairBot.py:18-24 | the state is written as a document that represents it: same threads, each answered-authors set and the final set as duplicate-free lists with the same members, the counts as they are |
| Persistence.LoadAfterSave | NoFlairBot.py:10-24 | loading a document that represents a state gives back exactly that state |
| Policy.Screen | NoFlairBot.py:101-122 | a comment is let through exactly when it qualifies: present non-empty author, thread without the final warning, no flair, author not answered in the thread, not the bot, name free of "bot" and "modteam" in any case, thread at most seven days old; a given reason applies to the comment |
| Policy.ScreenIsFirstMatch | NoFlairBot.py:100-122 | the reason given is the first check in the fixed order that applies; no reason is given exactly when no check applies |
| Policy.SelfCheckSubsumed | NoFlairBot.py:112-116 | a comment by the bot itself would also be dropped by the bot-name check |
| Bot.Boot | NoFlairBot.py:37-56 | at start-up the store is what `Load` reads and both windows are unspent, with their resets exactly one minute and one day after the start |
| Bot.BootGood | NoFlairBot.py:10-56 | starting from a missing or unreadable file, or from a document saved from a state within the reply cap, gives a state within the reply cap and the window bounds |
| Bot.RestartResumes | NoFlairBot.py:37 | a bot restarted from a document its state was saved as resumes with the same store |
| Bot.InitThread | NoFlairBot.py:92-96 | the thread gets both entries; no other key is added; no count, answered-authors set or final set changes in value |
| Bot.LooksLikeError | NoFlairBot.py:134 | a generated text is rejected exactly when "error" occurs in it as a contiguous block, in any case |
| Bot.Answer | NoFlairBot.py:128-148 | the generator is always called; the turn goes on exactly when the text is present, free of "error" in any case, and the reply was posted and marked, and then the calls are exactly: generate, post the generated text, mark; the generated text is posted exactly when it is free of "error" and the post did not raise, so a raising mark leaves the post behind; no other text is posted; only on success is the author added and one call spent in each window |
| Bot.Finish | NoFlairBot.py:152-166 | the final warning is due exactly when the count has reached 10 and the thread has none; it is posted exactly when due and the post did not raise, pinned and recorded exactly when due and pinning succeeded; when it went out in full the calls are post, pin, save in that order; the turn completes, saving the state last, exactly when the warning was not due or went out in full |
| Bot.Violate | NoFlairBot.py:124-166 | the count of the thread rises by one; the generator is called exactly when fewer than 3 authors were answered; a reply goes out exactly when below that cap the text was usable and the reply was posted and marked, and then the generated text was posted; the turn stops before the warning exactly when below the cap it was not; past the reply part with a count of at least 10, the warning is posted exactly when posting did not raise and pinned exactly when both writes succeeded; past the reply part the turn completes and saves exactly when the warning was not due or was pinned |
| Bot.Handle | NoFlairBot.py:99-170 | a skipped comment changes nothing and makes no call; a qualifying one is counted, and its reply (a post of the generated text, then a mark), stop, pin and save depend on the cap, the generated text and the write results as `Violate` states |
| Bot.Step | NoFlairBot.py:68-170 | a comment is dropped by the gate exactly when a rolled window is exhausted, and then only sleeps; every admitted comment creates its thread's entries; a comment is counted exactly when it is admitted and qualifies; a skipped comment makes no call |
| Bot.StepCounts | NoFlairBot.py:124-125 | a counted comment adds exactly one to its own thread's count; no other count changes |
| Bot.StepReplies | NoFlairBot.py:128-148 | the author joins the thread's answered set exactly when the reply was posted and marked; the generator is asked exactly for a counted comment in a thread below the cap of 3; the reply goes out exactly when, in addition, the text is usable and both writes succeed, and a reply that went out posted the generated text |
| Bot.StepFinal | NoFlairBot.py:134-163 | the final set grows only by the comment's thread, exactly when the warning was pinned, and only from a thread without it whose count reached 10; the turn stops before the warning exactly when a counted comment below the cap got no usable reply; otherwise, with the count at 10 or more, the warning is attempted, and pinned exactly when that write succeeded |
| Bot.StepWindows | NoFlairBot.py:146-148 | both windows are rolled and spend exactly one call when a reply went out, none otherwise |
| Bot.StepSaves | NoFlairBot.py:134-170 | the store is saved once, as the last call, exactly when the turn completes; that happens exactly when the comment is counted, its turn gets past the reply part, and either the count is below 10 or the warning went out and was pinned; past the gate every other call concerns the comment's thread |
| Bot.StepOtherThread | NoFlairBot.py:92-166 | a turn leaves the count, answered authors and final status of every other thread alone and makes no call about it |
| Bot.StepFrozen | NoFlairBot.py:104-105 | a comment in a thread with the final warning makes no call but a possible sleep and changes no count, answered set or final set |
| Bot.StepKeepsCapped | NoFlairBot.py:129-148 | a step keeps every thread at no more than 3 answered authors and both window counts within 5 and 250, whatever the clock reading |
| Bot.StepResetsWithin | NoFlairBot.py:73-80 | a step whose clock reading is no earlier than the previous one keeps both resets within one window length of the clock |
| Bot.StepKeepsGood | NoFlairBot.py:73-148 | a step with a clock that does not run backwards keeps the reply cap, the count limits and the reset bounds together |
| Trace.FoldAppend | NoFlairBot.py:58-66 | a stream processed in two pieces, the second starting from the state the first left, makes the same calls and ends in the same state as the whole stream |
| Trace.ReplayAppend | NoFlairBot.py:58-66 | the stream loop carries the counters, windows and thread state from each comment to the next: replaying two pieces of a stream one after the other is replaying the whole |
| Trace.ReplayKeepsCapped | NoFlairBot.py:129-148 | along any run, whatever the clock readings, the reply cap and both count limits hold after every turn |
| Trace.ReplayResetsWithin | NoFlairBot.py:73-80 | along a run with a clock that never runs backwards, both resets stay within one window length of the latest clock reading |
| Trace.ReplayKeepsGood | NoFlairBot.py:50-57 | along a run with a clock that never runs backwards, the reply cap, the count limits and the reset bounds hold after every turn |
| Trace.ReplayGrows | NoFlairBot.py:125 | along any run no count decreases and no thread leaves the final set |
| Trace.ReplayPinsOnce | NoFlairBot.py:161-163 | the warning of a thread is pinned in at most one turn of a run, in none if it had it already, and exactly when the thread ends up in the final set |
| Trace.ReplayFrozen | NoFlairBot.py:104-105 | once a thread has the final warning, no later call concerns it, and its count and answered authors never change |
| Trace.ReplaySleeps | NoFlairBot.py:82-90 | along a run that starts within the bounds and whose clock never runs backwards, every wait the gate imposes is positive and at most a day (positivity alone holds for any clock, by `RateWindow.Check`) |

## Left out

- The site client, the comment stream and the outer restart loop
  (NoFlairBot.py:27-35, :66, :172-174) are network I/O. The stream is the
  input sequence of `Trace.Replay`.
- The generator call (NoFlairBot.py:47, :131-132) is a foreign service. Its
  result is the `Generation` input. The prompt and the comment body it is
  built from are not modelled.
- Reply posting and moderator marking (NoFlairBot.py:140-141, :161-162) are
  foreign writes. They are modelled as emitted actions plus a `Write`
  outcome.
- The prompt, disclaimer and final-message texts (NoFlairBot.py:64, :139,
  :154-160) are string content without invariants. `PostReply` carries the
  generated text without the disclaimer.
- Logging (NoFlairBot.py:39-46 and the `logging` calls) is left out. So are
  the clock reads and `time.sleep`: the clock is a parameter, and a sleep is
  a `Sleep` action with its duration.
- JSON text encoding and file I/O (NoFlairBot.py:12-13, :19-24) are left
  out. The file is a `StoredFile`: missing, malformed (any content on which
  reading or converting raises) or a typed `Document`. A file that parses
  but holds values of other types than these is not modelled.
- A `save_state` that raises is left out. If opening the file fails, the
  old file stays as it was. A failure while the document is being written
  may leave a partial file, which `Load` reads as malformed.
- The post age is computed in floating point days from a separate clock read
  (NoFlairBot.py:70). The model uses the turn's one clock reading in integer
  seconds and compares `now - created > 7 * 86400`.
- The attribute reads outside the `try` (NoFlairBot.py:67-70) can raise, for
  example `comment.author.name` for a deleted account. That ends the whole
  stream loop and is not modelled. The author is an optional string, and
  only the `if not user_id` check is modelled.
- Text.Lower: folds only `A`-`Z`, not all of Unicode as Python's
  `str.lower` does. For the patterns "bot", "modteam" and "error" the result
  is the same: the only other characters Python lower-cases into ASCII
  letters are U+0130 (to `i` plus a combining dot) and U+212A (to `k`), and
  neither `i` nor `k` occurs in the patterns.

=== FILE: bot.dfy ===
/** One turn of the bot's comment loop as a pure step: the rate gate, the lazy
    creation of the thread's entries, the skip chain, the violation count, the
    individual reply and the final pinned warning, and the save of the state.
    The clock reading and the results of the calls to the text generator and
    to the site are inputs; the calls the bot makes are outputs. */
module Bot {
  import opened Optional
  import opened Text
  import opened RateWindow
  import opened Persistence
  import opened Policy

  /** At most this many authors are answered individually in one thread. */
  const RepliesPerThread: nat := 3
  /** The count at which the final warning is pinned in a thread. */
  const FinalThreshold: int := 10

  /** What the text generator gave back: it raised, it gave no usable
      response (none, or one without text), or it gave a text. */
  datatype Generation = GenRaised | GenEmpty | GenText(text: string)

  /** How a write to the site went: the post and the moderator marking both
      succeeded, the post raised, or the post went out and the marking raised. */
  datatype Write = Written | PostRaised | MarkRaised

  /** The results of the external calls this turn may make; each is consulted
      only if the call is made. */
  datatype Outcomes = Outcomes(generation: Generation, reply: Write, final: Write)

  datatype Action =
    | Sleep(seconds: nat)                 // the gate's wait before dropping the comment
    | Generate(thread: Id, author: Id)    // a call to the text generator
    | PostReply(thread: Id, author: Id, text: string)
    | MarkReply(thread: Id, author: Id)   // the reply is distinguished as a moderator action
    | PostFinal(thread: Id)
    | PinFinal(thread: Id)                // the final warning is distinguished and stickied
    | Persist(store: Store)               // the state file is written

  /** Why a turn stopped early after counting the violation. */
  datatype Cause = GeneratorRaised | UnusableText | ReplyRaised | FinalRaised

  datatype Disposition =
    | RateLimited
    | Skipped(reason: SkipReason)
    | Abandoned(cause: Cause)
    | Completed

  datatype State = State(store: Store, minute: Window, daily: Window)

  datatype Turn = Turn(state: State, actions: seq<Action>, disposition: Disposition)

  /** The state right after the bot starts at clock second `start`. */
  function Boot(f: StoredFile, start: int): (st: State)
    ensures st.store == Load(f)
    ensures st.minute.count == 0 && st.daily.count == 0
    ensures st.minute.resetAt == start + MinuteLength && st.daily.resetAt == start + DayLength
    ensures Sound(st.minute, start, MinuteLength, MinuteLimit)
    ensures Sound(st.daily, start, DayLength, DayLimit)
  {
    State(Load(f), Fresh(start, MinuteLength), Fresh(start, DayLength))
  }

  /** Start-up gives a state that satisfies the step invariant, whether the
      file is missing, unreadable, or a document saved from a state within
      the reply cap. */
  lemma BootGood(f: StoredFile, s: Store, start: int)
    requires f.Parsed? ==> Represents(f.doc, s)
    requires f.Parsed? ==> forall t :: t in s.replied ==> |s.replied[t]| <= RepliesPerThread
    ensures Good(Boot(f, start), start)
  {
    if f.Parsed? {
      LoadAfterSave(s, f.doc);
    }
  }

  /** A restarted bot that reads back a document its state was saved as
      resumes with the same store and with both windows unspent. */
  lemma RestartResumes(s: Store, d: Document, start: int)
    requires Represents(d, s)
    ensures Boot(Parsed(d), start).store == s
    ensures Boot(Parsed(d), start).minute.count == 0 && Boot(Parsed(d), start).daily.count == 0
  {
    LoadAfterSave(s, d);
  }

  /** A generated text the bot refuses to post: it mentions "error" in any case. */
  predicate LooksLikeError(text: string): (b: bool)
    ensures b <==> exists i :: OccursAt("error", Lower(text), i)
  {
    OccursIffSomewhere("error", Lower(text));
    assert Occurs("error", Lower(text)) <==> exists i :: OccursAt("error", Lower(text), i);
    ContainsLower(text, "error")
  }

  /** Creates the empty entries of thread `t` where they are missing. */
  function InitThread(s: Store, t: Id): (r: Store)
    ensures t in r.replied && t in r.counts
    ensures r.final == s.final
    ensures r.replied.Keys == s.replied.Keys + {t} && r.counts.Keys == s.counts.Keys + {t}
    ensures forall u :: RepliedOf(r, u) == RepliedOf(s, u) && CountOf(r, u) == CountOf(s, u)
  {
    var replied := if t in s.replied then s.replied else s.replied[t := {}];
    var counts := if t in s.counts then s.counts else s.counts[t := 0];
    Store(replied, s.final, counts)
  }

  /** No thread has more answered authors than the per-thread cap, and
      neither window holds more spent calls than its limit. */
  ghost predicate Capped(st: State)
  {
    && (forall t :: t in st.store.replied ==> |st.store.replied[t]| <= RepliesPerThread)
    && st.minute.count <= MinuteLimit
    && st.daily.count <= DayLimit
  }

  /** Neither window resets more than its length after `now`. */
  ghost predicate ResetsWithin(st: State, now: int)
  {
    st.minute.resetAt <= now + MinuteLength && st.daily.resetAt <= now + DayLength
  }

  /** The bounds that hold of a running bot at clock reading `now`. */
  ghost predicate Good(st: State, now: int)
  {
    Capped(st) && ResetsWithin(st, now)
  }

  /** The violation was counted: the turn got past the gate and the skip chain. */
  predicate Counted(d: Disposition)
  {
    d.Abandoned? || d.Completed?
  }

  /** The turn stopped before reaching the final-warning check. */
  predicate StoppedBeforeFinal(d: Disposition)
  {
    d.Abandoned? && d.cause != FinalRaised
  }

  /** An individual reply went out and was marked as a moderator action. */
  predicate HasReply(acts: seq<Action>)
  {
    exists i :: 0 <= i < |acts| && acts[i].MarkReply?
  }

  lemma HasReplyAppend(a: seq<Action>, b: seq<Action>)
    ensures HasReply(a + b) <==> HasReply(a) || HasReply(b)
  {
    if HasReply(a) {
      var i :| 0 <= i < |a| && a[i].MarkReply?;
      assert (a + b)[i].MarkReply?;
    }
    if HasReply(b) {
      var i :| 0 <= i < |b| && b[i].MarkReply?;
      assert (a + b)[|a| + i].MarkReply?;
    }
  }

  /** The call `a` concerns thread `t`. */
  predicate Concerns(a: Action, t: Id)
  {
    match a
    case Generate(th, _) => th == t
    case PostReply(th, _, _) => th == t
    case MarkReply(th, _) => th == t
    case PostFinal(th) => th == t
    case PinFinal(th) => th == t
    case _ => false
  }

  /** Every call in `acts` concerns thread `t`, apart from saving the state. */
  predicate AllAbout(acts: seq<Action>, t: Id)
  {
    forall a :: a in acts ==> a.Persist? || Concerns(a, t)
  }

  /** The generator gave a text the bot is willing to post, and the reply
      was posted and marked without raising. */
  predicate UsableReply(out: Outcomes)
  {
    out.generation.GenText? && !LooksLikeError(out.generation.text) && out.reply.Written?
  }

  /** No call in `acts` saves the state or touches the final warning. */
  predicate ReplyCallsOnly(acts: seq<Action>)
  {
    forall a :: a in acts ==> a.Generate? || a.PostReply? || a.MarkReply?
  }

  /** Where the reply part of a turn left off: its state, the calls it made,
      and the cause if it stopped the turn. */
  datatype Phase = Phase(state: State, actions: seq<Action>, stopped: Option<Cause>)

  /** Asks the generator for a reply to author `u` in thread `t`, posts it
      unless the text is unusable, and records the author and the spent
      call in both windows once the reply is marked. */
  function Answer(st: State, t: Id, u: Id, out: Outcomes): (p: Phase)
    requires t in st.store.replied
    ensures p.state.store.counts == st.store.counts && p.state.store.final == st.store.final
    ensures HasReply(p.actions) <==> p.stopped.None?
    ensures p.state.store.replied ==
              if p.stopped.None? then st.store.replied[t := st.store.replied[t] + {u}] else st.store.replied
    ensures p.state.minute == (if p.stopped.None? then Spend(st.minute) else st.minute)
    ensures p.state.daily == (if p.stopped.None? then Spend(st.daily) else st.daily)
    ensures p.stopped != Some(FinalRaised)
    ensures p.stopped.None? <==> UsableReply(out)
    ensures p.actions != [] && p.actions[0] == Generate(t, u)
    ensures ReplyCallsOnly(p.actions) && AllAbout(p.actions, t)
    // the generated text is posted first and then marked; a raising mark leaves the post behind
    ensures p.stopped.None? ==> p.actions == [Generate(t, u), PostReply(t, u, out.generation.text), MarkReply(t, u)]
    ensures out.generation.GenText? ==>
              (PostReply(t, u, out.generation.text) in p.actions <==>
                 !LooksLikeError(out.generation.text) && !out.reply.PostRaised?)
    ensures forall a :: a in p.actions && a.PostReply? ==> out.generation.GenText? && a == PostReply(t, u, out.generation.text)
  {
    var asked := [Generate(t, u)];
    match out.generation
    case GenRaised => Phase(st, asked, Some(GeneratorRaised))
    case GenEmpty => Phase(st, asked, Some(UnusableText))
    case GenText(text) =>
      if LooksLikeError(text) then
        Phase(st, asked, Some(UnusableText))
      else
        match out.reply
        case PostRaised => Phase(st, asked, Some(ReplyRaised))
        case MarkRaised => Phase(st, asked + [PostReply(t, u, text)], Some(ReplyRaised))
        case Written =>
          var acts := asked + [PostReply(t, u, text), MarkReply(t, u)];
          assert acts[2].MarkReply?;
          var s := st.store.(replied := st.store.replied[t := st.store.replied[t] + {u}]);
          Phase(State(s, Spend(st.minute), Spend(st.daily)), acts, None)
  }

  /** Posts and pins the final warning in thread `t` when its count has
      reached the threshold and it has none yet, then saves the state. */
  function Finish(st: State, t: Id, out: Outcomes): (r: Turn)
    requires t in st.store.counts
    ensures r.state.store.replied == st.store.replied && r.state.store.counts == st.store.counts
    ensures r.state.minute == st.minute && r.state.daily == st.daily
    ensures r.disposition == Completed || r.disposition == Abandoned(FinalRaised)
    ensures r.state.store.final == st.store.final + (if PinFinal(t) in r.actions then {t} else {})
    ensures PinFinal(t) in r.actions ==> t !in st.store.final && st.store.counts[t] >= FinalThreshold
    ensures PostFinal(t) in r.actions || r.disposition == Abandoned(FinalRaised) <==>
              t !in st.store.final && st.store.counts[t] >= FinalThreshold
    ensures r.disposition == Completed <==> r.actions != [] && r.actions[|r.actions| - 1] == Persist(r.state.store)
    ensures forall i :: 0 <= i < |r.actions| - 1 ==> !r.actions[i].Persist?
    ensures forall i :: 0 <= i < |r.actions| ==> !r.actions[i].MarkReply? && !r.actions[i].Generate?
    ensures AllAbout(r.actions, t)
    // the outcome of the two writes decides how far the warning got
    ensures var due := t !in st.store.final && st.store.counts[t] >= FinalThreshold;
      && (PinFinal(t) in r.actions <==> due && out.final.Written?)
      && (PostFinal(t) in r.actions <==> due && !out.final.PostRaised?)
      && (r.disposition == Completed <==> !due || out.final.Written?)
    // the warning is posted before it is pinned, and the state is saved last
    ensures t !in st.store.final && st.store.counts[t] >= FinalThreshold && out.final.Written? ==>
              r.actions == [PostFinal(t), PinFinal(t), Persist(r.state.store)]
  {
    if st.store.counts[t] >= FinalThreshold && t !in st.store.final then
      match out.final
      case PostRaised => Turn(st, [], Abandoned(FinalRaised))
      case MarkRaised => Turn(st, [PostFinal(t)], Abandoned(FinalRaised))
      case Written =>
        var s := st.store.(final := st.store.final + {t});
        Turn(st.(store := s), [PostFinal(t), PinFinal(t), Persist(s)], Completed)
    else
      Turn(st, [Persist(st.store)], Completed)
  }

  /** Counts a violation by author `u` in thread `t`, answers it while the
      thread is below the reply cap, then checks for the final warning. */
  function Violate(st: State, t: Id, u: Id, out: Outcomes): (r: Turn)
    requires t in st.store.replied && t in st.store.counts && t !in st.store.final
    ensures Counted(r.disposition)
    ensures r.state.store.counts == st.store.counts[t := st.store.counts[t] + 1]
    ensures r.state.store.replied ==
              if HasReply(r.actions) then st.store.replied[t := st.store.replied[t] + {u}] else st.store.replied
    ensures HasReply(r.actions) ==> out.generation.GenText? && PostReply(t, u, out.generation.text) in r.actions
    ensures Generate(t, u) in r.actions <==> |st.store.replied[t]| < RepliesPerThread
    ensures r.state.store.final == st.store.final + (if PinFinal(t) in r.actions then {t} else {})
    ensures PinFinal(t) in r.actions ==> st.store.counts[t] + 1 >= FinalThreshold
    ensures PostFinal(t) in r.actions || r.disposition == Abandoned(FinalRaised) <==>
              !StoppedBeforeFinal(r.disposition) && st.store.counts[t] + 1 >= FinalThreshold
    ensures r.state.minute == (if HasReply(r.actions) then Spend(st.minute) else st.minute)
    ensures r.state.daily == (if HasReply(r.actions) then Spend(st.daily) else st.daily)
    ensures r.disposition == Completed <==> r.actions != [] && r.actions[|r.actions| - 1] == Persist(r.state.store)
    ensures forall i :: 0 <= i < |r.actions| - 1 ==> !r.actions[i].Persist?
    ensures AllAbout(r.actions, t)
    // the outcomes of the calls decide whether the reply and the warning go out
    ensures HasReply(r.actions) <==> |st.store.replied[t]| < RepliesPerThread && UsableReply(out)
    ensures StoppedBeforeFinal(r.disposition) <==> |st.store.replied[t]| < RepliesPerThread && !UsableReply(out)
    ensures !StoppedBeforeFinal(r.disposition) && st.store.counts[t] + 1 >= FinalThreshold ==>
              (PinFinal(t) in r.actions <==> out.final.Written?)
    ensures !StoppedBeforeFinal(r.disposition) && st.store.counts[t] + 1 >= FinalThreshold ==>
              (PostFinal(t) in r.actions <==> !out.final.PostRaised?)
    // past the reply part, the turn completes and saves unless a due warning failed
    ensures !StoppedBeforeFinal(r.disposition) ==>
              (r.disposition == Completed <==> st.store.counts[t] + 1 < FinalThreshold || out.final.Written?)
  {
    var s1 := st.store.(counts := st.store.counts[t := st.store.counts[t] + 1]);
    if |s1.replied[t]| < RepliesPerThread then
      var p := Answer(st.(store := s1), t, u, out);
      if p.stopped.Some? then
        Turn(p.state, p.actions, Abandoned(p.stopped.value))
      else
        var f := Finish(p.state, t, out);
        HasReplyAppend(p.actions, f.actions);
        Turn(f.state, p.actions + f.actions, f.disposition)
    else
      Finish(st.(store := s1), t, out)
  }

  /** Handles an admitted comment `c` once the entries of its thread exist:
      the skip chain, then the violation. */
  function Handle(st: State, c: Comment, now: int, out: Outcomes): (r: Turn)
    requires c.thread in st.store.replied && c.thread in st.store.counts
    ensures r.disposition != RateLimited
    ensures Counted(r.disposition) <==> Qualifies(c, st.store, now)
    ensures r.disposition.Skipped? ==> r.state == st && r.actions == []
    ensures r.state.store.counts ==
              if Counted(r.disposition) then st.store.counts[c.thread := st.store.counts[c.thread] + 1]
              else st.store.counts
    ensures r.state.store.replied ==
              if HasReply(r.actions) then st.store.replied[c.thread := st.store.replied[c.thread] + {Name(c)}]
              else st.store.replied
    ensures HasReply(r.actions) ==>
              out.generation.GenText? && PostReply(c.thread, Name(c), out.generation.text) in r.actions
    ensures Generate(c.thread, Name(c)) in r.actions <==>
              Counted(r.disposition) && |st.store.replied[c.thread]| < RepliesPerThread
    ensures r.state.store.final == st.store.final + (if PinFinal(c.thread) in r.actions then {c.thread} else {})
    ensures PinFinal(c.thread) in r.actions ==>
              c.thread !in st.store.final && st.store.counts[c.thread] + 1 >= FinalThreshold
    ensures PostFinal(c.thread) in r.actions || r.disposition == Abandoned(FinalRaised) <==>
              Counted(r.disposition) && !StoppedBeforeFinal(r.disposition)
              && st.store.counts[c.thread] + 1 >= FinalThreshold
    ensures r.state.minute == (if HasReply(r.actions) then Spend(st.minute) else st.minute)
    ensures r.state.daily == (if HasReply(r.actions) then Spend(st.daily) else st.daily)
    ensures r.disposition == Completed <==> r.actions != [] && r.actions[|r.actions| - 1] == Persist(r.state.store)
    ensures forall i :: 0 <= i < |r.actions| - 1 ==> !r.actions[i].Persist?
    ensures AllAbout(r.actions, c.thread)
    ensures HasReply(r.actions) <==>
              Counted(r.disposition) && |st.store.replied[c.thread]| < RepliesPerThread && UsableReply(out)
    ensures StoppedBeforeFinal(r.disposition) <==>
              Counted(r.disposition) && |st.store.replied[c.thread]| < RepliesPerThread && !UsableReply(out)
    ensures Counted(r.disposition) && !StoppedBeforeFinal(r.disposition)
            && st.store.counts[c.thread] + 1 >= FinalThreshold ==>
              (PinFinal(c.thread) in r.actions <==> out.final.Written?)
    ensures Counted(r.disposition) && !StoppedBeforeFinal(r.disposition) ==>
              (r.disposition == Completed <==>
                 st.store.counts[c.thread] + 1 < FinalThreshold || out.final.Written?)
  {
    match Screen(c, st.store, now)
    case Skip(reason) => Turn(st, [], Skipped(reason))
    case Violation => Violate(st, c.thread, Name(c), out)
  }

  /** Handles one comment `c` arriving at clock second `now`. */
  function Step(st: State, c: Comment, now: int, out: Outcomes): (r: Turn)
    // the gate runs first; a dropped comment only sleeps and rolls the windows
    ensures r.disposition == RateLimited <==>
              Roll(st.minute, now, MinuteLength).count >= MinuteLimit
              || Roll(st.daily, now, DayLength).count >= DayLimit
    ensures r.disposition == RateLimited ==>
              r.state.store == st.store && r.actions == [Sleep(Check(st.minute, st.daily, now).sleep)]
    // every admitted comment creates the entries of its thread
    ensures r.disposition != RateLimited ==> c.thread in r.state.store.replied && c.thread in r.state.store.counts
    // a comment is counted exactly when it passes the gate and every skip check
    ensures Counted(r.disposition) <==> r.disposition != RateLimited && Qualifies(c, st.store, now)
    ensures r.disposition.Skipped? ==> r.actions == []
  {
    match Check(st.minute, st.daily, now)
    case Hold(m, d, sleep) =>
      Turn(State(st.store, m, d), [Sleep(sleep)], RateLimited)
    case Admit(m, d) =>
      Handle(State(InitThread(st.store, c.thread), m, d), c, now, out)
  }

  /** Counts: a counted comment adds exactly one to its own thread's count;
      no other count changes and none ever decreases. */
  lemma StepCounts(st: State, c: Comment, now: int, out: Outcomes)
    ensures var r := Step(st, c, now, out);
      forall t :: CountOf(r.state.store, t) ==
        CountOf(st.store, t) + (if t == c.thread && Counted(r.disposition) then 1 else 0)
  {
  }

  /** Answered authors: the author joins its thread's set exactly when the
      reply went out and was marked, which happens only for a counted comment
      in a thread below the cap; the generator is asked exactly then. */
  lemma StepReplies(st: State, c: Comment, now: int, out: Outcomes)
    ensures var r := Step(st, c, now, out);
      && (forall t :: RepliedOf(r.state.store, t) ==
            RepliedOf(st.store, t) + (if t == c.thread && HasReply(r.actions) then {Name(c)} else {}))
      && (HasReply(r.actions) ==>
            out.generation.GenText? && PostReply(c.thread, Name(c), out.generation.text) in r.actions)
      && (Generate(c.thread, Name(c)) in r.actions <==>
            Counted(r.disposition) && |RepliedOf(st.store, c.thread)| < RepliesPerThread)
      && (HasReply(r.actions) <==>
            Counted(r.disposition) && |RepliedOf(st.store, c.thread)| < RepliesPerThread && UsableReply(out))
  {
  }

  /** The final warning: it is attempted exactly when a counted comment
      brings its thread's count to the threshold and the reply part did not
      stop the turn; the thread joins the final set exactly when the warning
      was pinned, and no thread ever leaves it. */
  lemma StepFinal(st: State, c: Comment, now: int, out: Outcomes)
    ensures var r := Step(st, c, now, out);
      && r.state.store.final == st.store.final + (if PinFinal(c.thread) in r.actions then {c.thread} else {})
      && (PinFinal(c.thread) in r.actions ==>
            c.thread !in st.store.final && CountOf(r.state.store, c.thread) >= FinalThreshold)
      && (PostFinal(c.thread) in r.actions || r.disposition == Abandoned(FinalRaised) <==>
            Counted(r.disposition) && !StoppedBeforeFinal(r.disposition)
            && CountOf(r.state.store, c.thread) >= FinalThreshold)
      && (StoppedBeforeFinal(r.disposition) <==>
            Counted(r.disposition) && |RepliedOf(st.store, c.thread)| < RepliesPerThread && !UsableReply(out))
      && (Counted(r.disposition) && !StoppedBeforeFinal(r.disposition)
          && CountOf(r.state.store, c.thread) >= FinalThreshold ==>
            (PinFinal(c.thread) in r.actions <==> out.final.Written?))
  {
  }

  /** The windows are rolled on every comment and spend one call each
      exactly when a reply went out; an unusable text spends nothing. */
  lemma StepWindows(st: State, c: Comment, now: int, out: Outcomes)
    ensures var r := Step(st, c, now, out);
      && r.state.minute.resetAt == Roll(st.minute, now, MinuteLength).resetAt
      && r.state.daily.resetAt == Roll(st.daily, now, DayLength).resetAt
      && r.state.minute.count == Roll(st.minute, now, MinuteLength).count + (if HasReply(r.actions) then 1 else 0)
      && r.state.daily.count == Roll(st.daily, now, DayLength).count + (if HasReply(r.actions) then 1 else 0)
  {
  }

  /** The state is saved once, as the last call, with the store as it stands
      at the end of the turn, exactly when the turn completes; past the gate
      every other call concerns the comment's own thread. */
  lemma StepSaves(st: State, c: Comment, now: int, out: Outcomes)
    ensures var r := Step(st, c, now, out);
      && (r.disposition == Completed <==>
            r.actions != [] && r.actions[|r.actions| - 1] == Persist(r.state.store))
      && (forall i :: 0 <= i < |r.actions| - 1 ==> !r.actions[i].Persist?)
      && (r.disposition != RateLimited ==> AllAbout(r.actions, c.thread))
      && (r.disposition == Completed <==>
            Counted(r.disposition) && !StoppedBeforeFinal(r.disposition)
            && (CountOf(r.state.store, c.thread) < FinalThreshold || out.final.Written?))
  {
  }

  /** A turn leaves every other thread alone: no call concerns it, and its
      count, answered authors and final-warning status stay as they are. */
  lemma StepOtherThread(st: State, c: Comment, now: int, out: Outcomes, t: Id)
    requires t != c.thread
    ensures var r := Step(st, c, now, out);
      && CountOf(r.state.store, t) == CountOf(st.store, t)
      && RepliedOf(r.state.store, t) == RepliedOf(st.store, t)
      && (t in r.state.store.final <==> t in st.store.final)
      && forall a :: a in r.actions ==> !Concerns(a, t)
  {
    OtherThreadKept(st, c, now, out, t);
    OtherThreadUntouched(st, c, now, out, t);
  }

  /** The store part of `StepOtherThread`. */
  lemma OtherThreadKept(st: State, c: Comment, now: int, out: Outcomes, t: Id)
    requires t != c.thread
    ensures var r := Step(st, c, now, out);
      && CountOf(r.state.store, t) == CountOf(st.store, t)
      && RepliedOf(r.state.store, t) == RepliedOf(st.store, t)
      && (t in r.state.store.final <==> t in st.store.final)
  {
    StepCounts(st, c, now, out);
    StepReplies(st, c, now, out);
    StepFinal(st, c, now, out);
  }

  /** The calls part of `StepOtherThread`. */
  lemma OtherThreadUntouched(st: State, c: Comment, now: int, out: Outcomes, t: Id)
    requires t != c.thread
    ensures forall a :: a in Step(st, c, now, out).actions ==> !Concerns(a, t)
  {
    var r := Step(st, c, now, out);
    StepSaves(st, c, now, out);
    forall a | a in r.actions
      ensures !Concerns(a, t)
    {
      if r.disposition == RateLimited {
        assert a.Sleep?;
      } else {
        assert a.Persist? || Concerns(a, c.thread);
      }
    }
  }

  /** A thread that carries the final warning is left alone: no call
      concerns it and its count and answered authors stay as they are. */
  lemma StepFrozen(st: State, c: Comment, now: int, out: Outcomes)
    requires c.thread in st.store.final
    ensures var r := Step(st, c, now, out);
      && (r.actions == [] || (|r.actions| == 1 && r.actions[0].Sleep?))
      && r.state.store.final == st.store.final
      && (forall t :: CountOf(r.state.store, t) == CountOf(st.store, t))
      && (forall t :: RepliedOf(r.state.store, t) == RepliedOf(st.store, t))
  {
    StepCounts(st, c, now, out);
    StepReplies(st, c, now, out);
    StepFinal(st, c, now, out);
  }

  /** A step keeps the reply cap and both call limits for any clock
      reading, also one earlier than the last. */
  lemma StepKeepsCapped(st: State, c: Comment, now: int, out: Outcomes)
    requires Capped(st)
    ensures Capped(Step(st, c, now, out).state)
  {
    var r := Step(st, c, now, out);
    StepReplies(st, c, now, out);
    StepWindows(st, c, now, out);
    forall t | t in r.state.store.replied
      ensures |r.state.store.replied[t]| <= RepliesPerThread
    {
      assert RepliedOf(r.state.store, t) == r.state.store.replied[t];
      if t !in st.store.replied {
        assert RepliedOf(st.store, t) == {};
      }
    }
  }

  /** A step whose clock reading is no earlier than `prev` keeps both
      resets within one window length of the clock. */
  lemma StepResetsWithin(st: State, c: Comment, prev: int, now: int, out: Outcomes)
    requires ResetsWithin(st, prev)
    requires prev <= now
    ensures ResetsWithin(Step(st, c, now, out).state, now)
  {
    StepWindows(st, c, now, out);
  }

  /** Every turn keeps the bounds of `Good`, for any clock reading no
      earlier than the previous one. */
  lemma StepKeepsGood(st: State, c: Comment, prev: int, now: int, out: Outcomes)
    requires Good(st, prev)
    requires prev <= now
    ensures Good(Step(st, c, now, out).state, now)
  {
    StepKeepsCapped(st, c, now, out);
    StepResetsWithin(st, c, prev, now, out);
  }
}

=== FILE: optional.dfy ===
/** The "may be absent" values of the bot: a comment author of a deleted
    account, an author without a flair, a field missing from the state file. */
module Optional {

  datatype Option<+T> = None | Some(value: T) {

    /** The value, or `default` when there is none. */
    function GetOr(default: T): T
    {
      match this
      case Some(v) => v
      case None => default
    }
  }
}

=== FILE: persistence.dfy ===
/** The per-thread moderation state and its snapshot file.

    In memory the state is three collections keyed by thread id: the authors
    already answered in each thread, the threads that carry the final pinned
    warning, and the violation count of each thread. On disk every set
    becomes a list. */
module Persistence {
  import opened Optional

  type Id = string

  datatype Store = Store(replied: map<Id, set<Id>>, final: set<Id>, counts: map<Id, int>)

  const Empty := Store(map[], {}, map[])

  /** The authors answered in thread `t`; a thread without an entry has none. */
  function RepliedOf(s: Store, t: Id): set<Id>
  {
    if t in s.replied then s.replied[t] else {}
  }

  /** The violation count of thread `t`; a thread without an entry has 0. */
  function CountOf(s: Store, t: Id): int
  {
    if t in s.counts then s.counts[t] else 0
  }

  /** The content of a readable, well-typed state file. A top-level key that
      is absent from the file is `None`. */
  datatype Document = Document(
    replied: Option<map<Id, seq<Id>>>,
    final: Option<seq<Id>>,
    counts: Option<map<Id, int>>)

  /** What the state file holds when the bot starts: nothing, content on which
      reading or converting raises, or a document. */
  datatype StoredFile = Missing | Malformed | Parsed(doc: Document)

  function Elements(xs: seq<Id>): (s: set<Id>)
    ensures forall x :: x in s <==> x in xs
  {
    set x | x in xs
  }

  ghost predicate Distinct(xs: seq<Id>)
  {
    forall i, j :: 0 <= i < j < |xs| ==> xs[i] != xs[j]
  }

  /** Reads the state file. A missing or malformed file gives the empty state;
      a key absent from the document gives that collection's empty value. */
  function Load(f: StoredFile): (s: Store)
    ensures !f.Parsed? ==> s == Empty
    ensures f.Parsed? ==> s.counts == f.doc.counts.GetOr(map[])
    ensures f.Parsed? ==> forall t :: t in s.final <==> t in f.doc.final.GetOr([])
    ensures f.Parsed? ==> s.replied.Keys == f.doc.replied.GetOr(map[]).Keys
    ensures f.Parsed? && f.doc.replied.Some? ==>
              forall t, u :: t in s.replied && u in f.doc.replied.value[t] ==> u in s.replied[t]
    ensures f.Parsed? && f.doc.replied.Some? ==>
              forall t, u :: t in s.replied && u in s.replied[t] ==> u in f.doc.replied.value[t]
  {
    match f
    case Parsed(d) =>
      var lists := d.replied.GetOr(map[]);
      Store(map t | t in lists :: Elements(lists[t]),
            Elements(d.final.GetOr([])),
            d.counts.GetOr(map[]))
    case _ => Empty
  }

  /** `d` is a document that `s` can be written as: every set becomes a list
      of its members, each once, in any order. */
  ghost predicate Represents(d: Document, s: Store)
  {
    && d.replied.Some?
    && d.replied.value.Keys == s.replied.Keys
    && (forall t :: t in d.replied.value ==>
          Elements(d.replied.value[t]) == s.replied[t] && Distinct(d.replied.value[t]))
    && d.final.Some? && Elements(d.final.value) == s.final && Distinct(d.final.value)
    && d.counts == Some(s.counts)
  }

  /** Lists the members of a set, each exactly once. */
  method ListOf(s: set<Id>) returns (xs: seq<Id>)
    ensures Elements(xs) == s
    ensures Distinct(xs)
    ensures |xs| == |s|
  {
    xs := [];
    var rest := s;
    while rest != {}
      invariant rest <= s
      invariant Elements(xs) == s - rest
      invariant Distinct(xs)
      invariant |xs| + |rest| == |s|
      decreases rest
    {
      var x :| x in rest;
      xs := xs + [x];
      rest := rest - {x};
    }
  }

  /** Writes the state as a document: each answered-authors set and the
      final set become lists, the counts are written as they are. */
  method Save(s: Store) returns (d: Document)
    ensures Represents(d, s)
  {
    var lists: map<Id, seq<Id>> := map[];
    var todo := s.replied.Keys;
    while todo != {}
      invariant todo <= s.replied.Keys
      invariant lists.Keys == s.replied.Keys - todo
      invariant forall t :: t in lists ==> Elements(lists[t]) == s.replied[t] && Distinct(lists[t])
      decreases todo
    {
      var t :| t in todo;
      var xs := ListOf(s.replied[t]);
      lists := lists[t := xs];
      todo := todo - {t};
    }
    var finals := ListOf(s.final);
    d := Document(Some(lists), Some(finals), Some(s.counts));
  }

  /** Loading what was saved gives back the same three collections. */
  lemma {:induction false} LoadAfterSave(s: Store, d: Document)
    requires Represents(d, s)
    ensures Load(Parsed(d)) == s
  {
  }
}

=== FILE: policy.dfy ===
/** The ordered skip chain applied to every admitted comment. The first
    check that applies drops the comment; a comment no check applies to is a
    violation of the flair rule. */
module Policy {
  import opened Optional
  import opened Text
  import opened Persistence

  const BotName: string := "NoFlairBot"
  /** A thread older than this many seconds is left alone (seven days). */
  const MaxAge: int := 7 * 86400

  /** One streamed comment, reduced to what the decision reads: its thread,
      its author (absent for a deleted account), the author's flair text and
      the thread's creation time in seconds. */
  datatype Comment = Comment(thread: Id, author: Option<Id>, flair: Option<string>, created: int)

  /** The author's name; a deleted account has none, read here as "". */
  function Name(c: Comment): Id
  {
    c.author.GetOr("")
  }

  /** Python truthiness of an optional string: present and non-empty. */
  predicate Truthy(s: Option<string>)
  {
    s.Some? && s.value != ""
  }

  datatype SkipReason =
    | DeletedAuthor
    | ThreadFinalised
    | HasFlair
    | AlreadyReplied
    | IsSelf
    | NameHasBot
    | NameHasModTeam
    | ThreadTooOld

  /** The checks in the order they are tried. */
  const SkipOrder: seq<SkipReason> :=
    [DeletedAuthor, ThreadFinalised, HasFlair, AlreadyReplied,
     IsSelf, NameHasBot, NameHasModTeam, ThreadTooOld]

  /** Whether check `r` on its own would drop comment `c`, judged against the
      store `s` and the clock reading `now`. */
  predicate Applies(r: SkipReason, c: Comment, s: Store, now: int)
  {
    match r
    case DeletedAuthor => !Truthy(c.author)
    case ThreadFinalised => c.thread in s.final
    case HasFlair => Truthy(c.flair)
    case AlreadyReplied => c.author.Some? && c.author.value in RepliedOf(s, c.thread)
    case IsSelf => c.author == Some(BotName)
    case NameHasBot => c.author.Some? && ContainsLower(c.author.value, "bot")
    case NameHasModTeam => c.author.Some? && ContainsLower(c.author.value, "modteam")
    case ThreadTooOld => now - c.created > MaxAge
  }

  /** A comment that breaks the rule: a present author without a flair, in a
      thread without the final warning, not answered there before, not the
      bot itself nor a bot-like or mod-team name, in a thread at most seven
      days old. */
  predicate Qualifies(c: Comment, s: Store, now: int)
  {
    && c.author.Some? && c.author.value != ""
    && c.thread !in s.final
    && (c.flair.None? || c.flair.value == "")
    && c.author.value !in RepliedOf(s, c.thread)
    && c.author.value != BotName
    && !ContainsLower(c.author.value, "bot")
    && !ContainsLower(c.author.value, "modteam")
    && now - c.created <= MaxAge
  }

  datatype Verdict = Skip(reason: SkipReason) | Violation

  /** Check number `i` applies and none before it does. */
  ghost predicate FirstAt(i: int, c: Comment, s: Store, now: int)
  {
    && 0 <= i < |SkipOrder|
    && Applies(SkipOrder[i], c, s, now)
    && forall j :: 0 <= j < i ==> !Applies(SkipOrder[j], c, s, now)
  }

  /** Runs the checks in order and stops at the first that applies. */
  function Screen(c: Comment, s: Store, now: int): (v: Verdict)
    ensures v.Violation? <==> Qualifies(c, s, now)
    ensures v.Skip? ==> Applies(v.reason, c, s, now)
  {
    if !Truthy(c.author) then Skip(DeletedAuthor)
    else if c.thread in s.final then Skip(ThreadFinalised)
    else if Truthy(c.flair) then Skip(HasFlair)
    else if Name(c) in RepliedOf(s, c.thread) then Skip(AlreadyReplied)
    else if Name(c) == BotName then Skip(IsSelf)
    else if ContainsLower(Name(c), "bot") then Skip(NameHasBot)
    else if ContainsLower(Name(c), "modteam") then Skip(NameHasModTeam)
    else if now - c.created > MaxAge then Skip(ThreadTooOld)
    else Violation
  }

  /** The reason `Screen` gives is the first check in `SkipOrder` that
      applies, and it lets a comment through only when none applies. */
  lemma ScreenIsFirstMatch(c: Comment, s: Store, now: int)
    ensures Screen(c, s, now).Violation? <==>
              forall i :: 0 <= i < |SkipOrder| ==> !Applies(SkipOrder[i], c, s, now)
    ensures Screen(c, s, now).Skip? ==>
              exists i :: FirstAt(i, c, s, now) && SkipOrder[i] == Screen(c, s, now).reason
  {
    var i :=
      if !Truthy(c.author) then 0
      else if c.thread in s.final then 1
      else if Truthy(c.flair) then 2
      else if Name(c) in RepliedOf(s, c.thread) then 3
      else if Name(c) == BotName then 4
      else if ContainsLower(Name(c), "bot") then 5
      else if ContainsLower(Name(c), "modteam") then 6
      else if now - c.created > MaxAge then 7
      else 8;
    if i < 8 {
      assert FirstAt(i, c, s, now);
    }
  }

  /** The bot's own name contains "bot", so the self check never drops a
      comment that the bot-name check after it would have let through. */
  lemma SelfCheckSubsumed(c: Comment, s: Store, now: int)
    requires Applies(IsSelf, c, s, now)
    ensures Applies(NameHasBot, c, s, now)
  {
  }
}

=== FILE: rate_window.dfy ===
/** The two fixed call-budget windows guarding the text-generation service:
    five calls per minute and 250 per day. A window is a counter and the
    clock second at which it resets. */
module RateWindow {

  const MinuteLength: nat := 60
  const MinuteLimit: nat := 5
  const DayLength: nat := 86400
  const DayLimit: nat := 250

  datatype Window = Window(count: nat, resetAt: int)

  /** A window whose reset lies `length` seconds after `now`, with nothing spent. */
  function Fresh(now: int, length: nat): (w: Window)
    ensures w.count == 0 && w.resetAt - now == length
  {
    Window(0, now + length)
  }

  /** Rolls the window over when its reset time has been reached. */
  function Roll(w: Window, now: int, length: nat): (r: Window)
    ensures now >= w.resetAt ==> r == Fresh(now, length)
    ensures now < w.resetAt ==> r == w
    ensures length > 0 ==> now < r.resetAt
    ensures r.count <= w.count
  {
    if now >= w.resetAt then Fresh(now, length) else w
  }

  /** Seconds from `now` until `w` resets, never negative. */
  function Remaining(w: Window, now: int): nat
  {
    if w.resetAt - now > 0 then w.resetAt - now else 0
  }

  /** The outcome of the gate in front of every comment: either the comment
      is admitted, or it is dropped after sleeping `sleep` seconds. Either
      way the rolled windows are kept. */
  datatype Gate = Admit(minute: Window, daily: Window)
                | Hold(minute: Window, daily: Window, sleep: nat)

  /** Rolls both windows, then drops the comment if the minute window and,
      failing that, the day window has used up its limit. */
  function Check(minute: Window, daily: Window, now: int): (g: Gate)
    ensures g.minute == Roll(minute, now, MinuteLength)
    ensures g.daily == Roll(daily, now, DayLength)
    ensures g.Hold? <==> g.minute.count >= MinuteLimit || g.daily.count >= DayLimit
    // an exhausted window cannot have just been rolled, so the sleep is never clamped
    ensures g.Hold? ==> g.sleep > 0
    ensures g.Hold? && g.minute.count >= MinuteLimit ==>
              g.minute == minute && g.sleep == minute.resetAt - now
    ensures g.Hold? && g.minute.count < MinuteLimit ==>
              g.daily == daily && g.sleep == daily.resetAt - now
  {
    var m := Roll(minute, now, MinuteLength);
    var d := Roll(daily, now, DayLength);
    if m.count >= MinuteLimit then Hold(m, d, Remaining(m, now))
    else if d.count >= DayLimit then Hold(m, d, Remaining(d, now))
    else Admit(m, d)
  }

  /** Records one spent call in a window. */
  function Spend(w: Window): (r: Window)
    ensures r.count == w.count + 1 && r.resetAt == w.resetAt
  {
    Window(w.count + 1, w.resetAt)
  }

  /** A window never holds more spent calls than its limit and never resets
      later than one window length after the clock reading `now`. */
  ghost predicate Sound(w: Window, now: int, length: nat, limit: nat)
  {
    w.count <= limit && w.resetAt <= now + length
  }

  /** The gate keeps both windows sound, leaves room for one more call when
      it admits, and never sleeps longer than the exhausted window's length. */
  lemma {:induction false} CheckKeepsSound(minute: Window, daily: Window, now: int, later: int)
    requires Sound(minute, now, MinuteLength, MinuteLimit)
    requires Sound(daily, now, DayLength, DayLimit)
    requires now <= later
    ensures var g := Check(minute, daily, later);
      && Sound(g.minute, later, MinuteLength, MinuteLimit)
      && Sound(g.daily, later, DayLength, DayLimit)
      && (g.Admit? ==> g.minute.count < MinuteLimit && g.daily.count < DayLimit)
      && (g.Hold? && g.minute.count >= MinuteLimit ==> g.sleep <= MinuteLength)
      && (g.Hold? ==> g.sleep <= DayLength)
  {
  }
}

=== FILE: text.dfy ===
/** The two string operations the skip chain and the response check rely on:
    lower-casing and substring membership (Python's `x in s.lower()`). */
module Text {

  /** Lower-cases one character. Only `A`..`Z` are folded; see README for why
      this agrees with Python's `str.lower` on the patterns the bot looks for. */
  function LowerChar(c: char): char
  {
    if 'A' <= c <= 'Z' then (c as int + 32) as char else c
  }

  function Lower(s: string): (r: string)
    ensures |r| == |s|
    ensures forall i :: 0 <= i < |s| ==> r[i] == LowerChar(s[i])
  {
    if s == [] then [] else [LowerChar(s[0])] + Lower(s[1..])
  }

  /** `pat` occurs somewhere in `s` as a contiguous block. */
  ghost predicate OccursAt(pat: string, s: string, i: int)
  {
    0 <= i && i + |pat| <= |s| && s[i..i + |pat|] == pat
  }

  /** Substring membership, searched left to right. */
  function Occurs(pat: string, s: string): bool
    decreases |s|
  {
    if |s| < |pat| then false
    else if s[..|pat|] == pat then true
    else Occurs(pat, s[1..])
  }

  /** The search finds `pat` exactly when it occurs somewhere in `s`. */
  lemma {:induction false} OccursIffSomewhere(pat: string, s: string)
    ensures Occurs(pat, s) <==> exists i :: OccursAt(pat, s, i)
    decreases |s|
  {
    if |s| < |pat| {
    } else if s[..|pat|] == pat {
      assert OccursAt(pat, s, 0);
    } else {
      OccursIffSomewhere(pat, s[1..]);
      ShiftOccurrence(pat, s);
    }
  }

  /** An occurrence in `s` at a position past 0 is an occurrence in `s[1..]`, and back. */
  lemma ShiftOccurrence(pat: string, s: string)
    requires s != []
    requires !OccursAt(pat, s, 0)
    ensures (exists i :: OccursAt(pat, s, i)) <==> (exists j :: OccursAt(pat, s[1..], j))
  {
    forall j | OccursAt(pat, s[1..], j)
      ensures OccursAt(pat, s, j + 1)
    {
      assert s[1..][j..j + |pat|] == s[j + 1..j + 1 + |pat|];
    }
    forall i | OccursAt(pat, s, i)
      ensures OccursAt(pat, s[1..], i - 1)
    {
      assert s[1..][i - 1..i - 1 + |pat|] == s[i..i + |pat|];
    }
  }

  /** Python's `pat in s.lower()`. */
  function ContainsLower(s: string, pat: string): bool
  {
    Occurs(pat, Lower(s))
  }
}

=== FILE: trace.dfy ===
/** The comment stream as a sequence of inputs fed to `Step` one after the
    other, and what holds of every such run. */
module Trace {
  import opened Persistence
  import opened Policy
  import opened RateWindow
  import opened Bot

  /** One streamed comment with the clock reading at its arrival and the
      results of the external calls its turn may make. */
  datatype Input = Input(comment: Comment, now: int, outcomes: Outcomes)

  datatype Run = Run(state: State, actions: seq<Action>)

  /** One turn of the stream loop: the step for one streamed comment. */
  function Advance(st: State, i: Input): Turn
  {
    Step(st, i.comment, i.now, i.outcomes)
  }

  /** Feeds the inputs one after the other through `step`, carrying the
      state from each turn to the next and collecting every call made. */
  function Fold(step: (State, Input) -> Turn, st: State, ins: seq<Input>): Run
    decreases |ins|
  {
    if ins == [] then Run(st, [])
    else
      var r := step(st, ins[0]);
      var rest := Fold(step, r.state, ins[1..]);
      Run(rest.state, r.actions + rest.actions)
  }

  /** Processes the inputs in order, collecting every call made. */
  function Replay(st: State, ins: seq<Input>): Run
  {
    Fold(Advance, st, ins)
  }

  /** Running a sequence of inputs in two pieces, the second from where the
      first left off, makes the same calls and ends in the same state as
      running it at once. */
  lemma {:induction false} FoldAppend(step: (State, Input) -> Turn, st: State, a: seq<Input>, b: seq<Input>)
    ensures var ra := Fold(step, st, a);
      var rb := Fold(step, ra.state, b);
      Fold(step, st, a + b) == Run(rb.state, ra.actions + rb.actions)
    decreases |a|
  {
    if a == [] {
      assert a + b == b;
    } else {
      assert (a + b)[0] == a[0];
      assert (a + b)[1..] == a[1..] + b;
      var r := step(st, a[0]);
      FoldAppend(step, r.state, a[1..], b);
      var ra := Fold(step, r.state, a[1..]);
      var rb := Fold(step, ra.state, b);
      assert r.actions + (ra.actions + rb.actions) == (r.actions + ra.actions) + rb.actions;
    }
  }

  /** The stream loop carries the whole state from one comment to the next:
      a stream replayed in two pieces behaves as the whole stream. */
  lemma ReplayAppend(st: State, a: seq<Input>, b: seq<Input>)
    ensures var ra := Replay(st, a);
      var rb := Replay(ra.state, b);
      Replay(st, a + b) == Run(rb.state, ra.actions + rb.actions)
  {
    FoldAppend(Advance, st, a, b);
  }

  /** The clock never runs backwards, starting from `start`. */
  ghost predicate Monotone(start: int, ins: seq<Input>)
    decreases |ins|
  {
    ins == [] || (start <= ins[0].now && Monotone(ins[0].now, ins[1..]))
  }

  /** The clock reading of the last input, or `start` when there is none. */
  function LastClock(start: int, ins: seq<Input>): int
  {
    if ins == [] then start else ins[|ins| - 1].now
  }

  /** The number of turns that pinned the final warning of thread `t`. */
  function PinTurns(st: State, ins: seq<Input>, t: Id): nat
    decreases |ins|
  {
    if ins == [] then 0
    else
      var r := Step(st, ins[0].comment, ins[0].now, ins[0].outcomes);
      (if PinFinal(t) in r.actions then 1 else 0) + PinTurns(r.state, ins[1..], t)
  }

  /** Along any run with a clock that never runs backwards, the reply cap
      and both window bounds hold after every turn. */
  lemma ReplayKeepsGood(st: State, start: int, ins: seq<Input>)
    requires Good(st, start)
    requires Monotone(start, ins)
    ensures Good(Replay(st, ins).state, LastClock(start, ins))
  {
    ReplayKeepsCapped(st, ins);
    ReplayResetsWithin(st, start, ins);
  }

  /** Along a run with a clock that never runs backwards, both resets stay
      within one window length of the latest clock reading. */
  lemma {:induction false} ReplayResetsWithin(st: State, start: int, ins: seq<Input>)
    requires ResetsWithin(st, start)
    requires Monotone(start, ins)
    ensures ResetsWithin(Replay(st, ins).state, LastClock(start, ins))
    decreases |ins|
  {
    if ins != [] {
      var i := ins[0];
      StepResetsWithin(st, i.comment, start, i.now, i.outcomes);
      var r := Step(st, i.comment, i.now, i.outcomes);
      ReplayResetsWithin(r.state, i.now, ins[1..]);
      assert LastClock(i.now, ins[1..]) == LastClock(start, ins);
    }
  }

  /** Along any run, whatever the clock readings, the reply cap and both
      call limits hold after every turn. */
  lemma {:induction false} ReplayKeepsCapped(st: State, ins: seq<Input>)
    requires Capped(st)
    ensures Capped(Replay(st, ins).state)
    decreases |ins|
  {
    if ins != [] {
      var i := ins[0];
      StepKeepsCapped(st, i.comment, i.now, i.outcomes);
      var r := Step(st, i.comment, i.now, i.outcomes);
      ReplayKeepsCapped(r.state, ins[1..]);
    }
  }

  /** No count ever decreases and no thread ever leaves the final set. */
  lemma {:induction false} ReplayGrows(st: State, ins: seq<Input>)
    ensures st.store.final <= Replay(st, ins).state.store.final
    ensures forall t :: CountOf(st.store, t) <= CountOf(Replay(st, ins).state.store, t)
    decreases |ins|
  {
    if ins != [] {
      var i := ins[0];
      StepCounts(st, i.comment, i.now, i.outcomes);
      StepFinal(st, i.comment, i.now, i.outcomes);
      var r := Step(st, i.comment, i.now, i.outcomes);
      ReplayGrows(r.state, ins[1..]);
    }
  }

  /** The final warning of a thread is pinned in at most one turn of a run,
      in none if the thread already had it, and exactly when the thread ends
      up in the final set. */
  lemma {:induction false} ReplayPinsOnce(st: State, ins: seq<Input>, t: Id)
    ensures PinTurns(st, ins, t) + (if t in st.store.final then 1 else 0) ==
            (if t in Replay(st, ins).state.store.final then 1 else 0)
    decreases |ins|
  {
    if ins != [] {
      var i := ins[0];
      var r := Step(st, i.comment, i.now, i.outcomes);
      if t == i.comment.thread {
        StepFinal(st, i.comment, i.now, i.outcomes);
      } else {
        StepOtherThread(st, i.comment, i.now, i.outcomes, t);
      }
      ReplayPinsOnce(r.state, ins[1..], t);
    }
  }

  /** Once thread `t` carries the final warning, no later call concerns it
      and its count and answered authors never change again. */
  lemma {:induction false} ReplayFrozen(st: State, ins: seq<Input>, t: Id)
    requires t in st.store.final
    ensures var run := Replay(st, ins);
      && CountOf(run.state.store, t) == CountOf(st.store, t)
      && RepliedOf(run.state.store, t) == RepliedOf(st.store, t)
      && t in run.state.store.final
      && forall a :: a in run.actions ==> !Concerns(a, t)
    decreases |ins|
  {
    if ins != [] {
      var i := ins[0];
      var r := Step(st, i.comment, i.now, i.outcomes);
      if i.comment.thread == t {
        StepFrozen(st, i.comment, i.now, i.outcomes);
      } else {
        StepOtherThread(st, i.comment, i.now, i.outcomes, t);
      }
      ReplayFrozen(r.state, ins[1..], t);
    }
  }

  /** A wait is positive and no longer than a day. */
  predicate SleepsBounded(acts: seq<Action>)
  {
    forall a :: a in acts && a.Sleep? ==> 0 < a.seconds <= DayLength
  }

  /** Every wait the gate imposes along a run is positive and no longer than
      a day. */
  lemma {:induction false} ReplaySleeps(st: State, start: int, ins: seq<Input>)
    requires Good(st, start)
    requires Monotone(start, ins)
    ensures SleepsBounded(Replay(st, ins).actions)
    decreases |ins|
  {
    if ins != [] {
      var i := ins[0];
      var r := Step(st, i.comment, i.now, i.outcomes);
      CheckKeepsSound(st.minute, st.daily, start, i.now);
      StepKeepsGood(st, i.comment, start, i.now, i.outcomes);
      StepSaves(st, i.comment, i.now, i.outcomes);
      ReplaySleeps(r.state, i.now, ins[1..]);
    }
  }
}
